=== FILE: README.md ===
# compose-unpacker, modelled in Dafny

compose-unpacker is a small command-line helper that deploys and removes
Docker Compose and Docker Swarm stacks whose files live in a Git repository.
A deploy clones the repository into `<destination>/mount/<repository name>`
(moving any previous working root aside to `<destination>/mount-old` and
removing that backup at the end), then hands the compose files to the Compose
engine or to `docker stack deploy`. An undeploy derives the same clone path and
asks the Compose engine to remove the stack, or runs `docker stack rm`.

This project models the decision and string logic of those commands:

- **Strings** — `strings.LastIndex`, `strings.TrimSuffix`, `strings.Split`
  and `splitLines` (split on a separator, drop empty parts).
- **Paths** — the repository name taken from the URL, the working root, the
  backup path, the clone path and the absolute compose file paths.
- **DockerArgs** — every docker argument vector the commands build, as a
  `Request` with an encoder (`Args`) and a decoder (`Parse`) proved to be
  inverse; `prepareDockerCommandAndArgs`.
- **Process** — `runCommandAndCaptureStdErr`: what is started (binary,
  arguments, environment, working directory) and which error comes back.
- **System** — the host as data: the set of existing paths and the answers
  the outside world gives (stat, mkdir, move, remove, clone, Compose engine,
  docker). A command run is a `Report`: the returned error, the paths that
  exist afterwards and the ordered trace of external steps.
- **Workdir** — the preparation of the working root (create it, or move it to
  its backup) and the deferred removal of the backup.
- **Deploy**, **Swarm**, **Undeploy** — the `Run` methods of the four
  commands and the Swarm helpers, with their error mapping.

The Git clone, the Compose engine and every started process are opaque: their
outcome is a field of the host record, and the model records exactly what is
asked of them. The operating system choice (`docker` or `docker.exe`, `\n` or
`\r\n`) is a boolean parameter.

The model follows the code as written: the working root is `Destination + "/mount"`; an existing root is
moved to `-old` and removed afterwards; `splitLines` does not turn `\r\n` into
`\n`; the Compose deploy passes `false` as its final flag; the Swarm deploy in
deploy.go runs docker with the project name as working directory and an empty
(non-nil) extra environment, ignoring the command's environment list; the
Compose undeploy does not remove any directory; and every failure of the
Compose undeploy is the generic "stack deployment failure", so the declared
"compose stack remove failure" is never returned.

## Model

| member | source | states |
|---|---|---|
| Strings.LastIndexOf | deploy.go:36 | No index exactly when the character does not occur; otherwise the index holds the character and no later position does. |
| Strings.TrimSuffix | deploy.go:44 | A present suffix is removed once (result plus suffix is the input); otherwise the input is unchanged. |
| Strings.Split | swarm.go:98 | There is always at least one part and no part contains the separator. |
| Strings.JoinSplit | swarm.go:98 | Joining the parts of a split with the separator gives back the input, so the split loses nothing. |
| Strings.RemoveEmpty | swarm.go:100-106 | The result has no empty string, holds exactly the non-empty parts, and is the input when nothing was empty. |
| Strings.RemoveEmptyConcat | swarm.go:101-106 | Dropping empty parts distributes over concatenation, so the loop may keep its result as a prefix. |
| Strings.SplitLines | swarm.go:91-108 | The loop returns exactly the separator-split parts with the empty ones dropped, in order, and never an empty string. |
| Strings.SplitListing | swarm.go:98 | A listing of separator-free lines, each followed by the separator, splits into those lines plus one trailing empty part. |
| Strings.LinesOfListing | swarm.go:98-107 | Splitting a listing of separator-free lines and dropping empties gives back the non-empty lines in order; all of them when none is empty. |
| Strings.SplitLinesExamples | swarm.go:91-108 | An empty output gives no line; "id1\nid2\n\n" split on "\n" gives ["id1", "id2"]. |
| Strings.CarriageReturnKept | swarm.go:92-98 | Windows line ends split on "\n" keep their carriage return: no normalisation happens. |
| Paths.RepositoryName | deploy.go:36-44 | No name exactly when the URL has no slash; the name has no slash and the URL ends with slash, name and ".git", or with slash and name when it does not end in ".git". |
| Paths.RepositoryNameOfUrl | deploy.go:44 | Any prefix, a slash, a slash-free name and ".git" give back that name; without ".git" the same holds when the name does not end in ".git". |
| Paths.DoubleGitSuffixTrimmedOnce | deploy.go:44 | Only one ".git" is removed: ".../app.git.git" names the repository "app.git". |
| Paths.ComposeFilePaths | deploy.go:118-121 | One absolute path per relative path, same length and order, element i is the clone path joined with relative path i. |
| Paths.ComposeFilePathsRelative | deploy.go:118-121 | Each absolute compose path starts with the clone path and a slash and ends with its relative path, so the mapping is invertible. |
| Paths.ClonePathLastElement | deploy.go:90 | The clone path is the destination, "/mount/" and the repository name, and its last slash sits just before the name. |
| DockerArgs.ComposeFileArgsShape | deploy.go:243-245 | Exactly one "--compose-file" and path pair per file, in input order. |
| DockerArgs.StackDeployArgsShape | deploy.go:232-251 | The vector starts with "stack deploy", has "--prune" iff pruning, always "--with-registry-auth", "--resolve-image=never" iff not pulling, the file pairs after the options, the project name last, and length options + 2n + 1. |
| DockerArgs.StackDeployRoundTrip | deploy.go:232-251 | The `stack deploy` vector decodes back to the flags, files and project it was built from, even when a path or name looks like an option. |
| DockerArgs.ParseArgs | swarm.go:13-73 | Every docker request (stack deploy, stack services, service update, stack rm, --config) decodes back from its vector. |
| DockerArgs.ParseIffArgs | swarm.go:13-73 | A vector decodes to a request if and only if it is exactly that request's vector, so every contract stating `Parse(args) == Some(req)` pins the vector itself. |
| DockerArgs.ArgsInjective | undeploy.go:75-76 | Two different requests never produce the same argument vector. |
| DockerArgs.PrepareDockerCommandAndArgs | deploy.go:307-319 | Never fails; the arguments are exactly the global config option for the given path; the binary is docker (docker.exe on Windows) inside the binary path, or the bare name when the binary path is empty. |
| Process.RunCommandAndCaptureStdErr | deploy.go:273-291 | Command, arguments and directory are used as given; a nil environment stays unset; any other is the parent environment followed by the given entries; success iff the process succeeds; a failure's message is the captured standard error. |
| Process.ChildEnvironmentExtendsParent | deploy.go:279-282 | The list assigned to `cmd.Env` always holds the whole parent environment first, and a nil and an empty list give the same list. |
| System.MoveTree | deploy.go:70 | Renaming a tree keeps every path outside it, carries every path under it to the same place under the new name, and adds nothing else. |
| System.RemoveTree | deploy.go:75 | Removal of a tree deletes exactly the paths at or under the root and nothing else. |
| Workdir.Prepare | deploy.go:49-80 | A stat error aborts unchanged with no step; a missing root is created (failure is the generic error); an existing root is moved to "-old" (a move error aborts unchanged, and a backup path already in the path set aborts with the move's refusal): the paths become exactly those of the tree move, so nothing stays at or under the root and every other path is kept; an abort leaves the paths alone. |
| Workdir.BackupNotUnderMount | deploy.go:69-70 | After the move no path lies at or under the working root. |
| Workdir.BackupKeepsTree | deploy.go:69-73 | After a successful move every path of the old working tree reappears at the same place under the backup. |
| Workdir.BackupIsOldTree | deploy.go:69-73 | After a successful move the backup holds nothing but the old working tree: on a path set closed under parents, the move never merges into an earlier backup. |
| Workdir.PrepareIsFresh | deploy.go:49-80 | On a path set closed under parents, a successful preparation leaves nothing below the working root, whether it was created or moved aside. |
| Workdir.Release | deploy.go:74-79 | The backup removal keeps the returned error, comes last, and when it succeeds leaves exactly the paths minus the backup tree; when it fails it changes nothing. |
| Deploy.GetAuth | deploy.go:293-305 | No credentials exactly when the password is empty; otherwise the password as given and the user name as given, or "token" when it is empty. |
| Deploy.RunEffects | deploy.go:49-141 | After preparation the steps are: the preparation step, the clone, the deployment steps only if the clone succeeded, and the backup removal last when there is a backup. |
| Deploy.RejectsUrlWithoutSlash | deploy.go:36-43 | A URL without a slash fails with the generic error before any step, and that is the only way to fail with the generic error and no step. |
| Deploy.StatErrorReturnedUnchanged | deploy.go:50-64 | A stat error other than "does not exist" is returned as it is, before any step. |
| Deploy.MissingMountCreated | deploy.go:50-61 | A missing working root is created first and never moved or removed; a creation failure stops with the generic error. |
| Deploy.ExistingMountBackedUp | deploy.go:65-80 | An existing root is moved to its backup first; a backup path already in the path set fails the move with its refusal and a move error is returned unchanged, both with the paths untouched; otherwise the backup removal is the last step and, when it succeeds, nothing of the backup remains. |
| Deploy.KeepsUnrelatedPaths | deploy.go:49-80 | A run never loses a path that lies neither at or under the working root nor under its "-old" backup. |
| Deploy.LeftoverBackupBlocksNextRun | deploy.go:69-79 | After a run that moved the root, cloned and failed to remove the backup, the next deploy into the same destination stops at the move with the refusal and changes nothing. |
| Deploy.RemovalFailureOnlyLogged | deploy.go:74-79 | Whether the backup removal succeeds changes neither the returned error nor the steps taken. |
| Deploy.SucceedsExactlyWhen | deploy.go:22-141 | A deploy succeeds iff the URL has a slash, preparation (including a move to a free backup path), clone and deployment step succeed; every other failure is the generic error or a passed-through OS error. |
| Deploy.CloneTarget | deploy.go:84-97 | Every clone goes to the clone path of the URL and destination, with the credentials of getAuth and depth 1 (Compose) or 100 (Swarm). |
| Deploy.ComposeDeployStep | deploy.go:118-129 | The Compose deploy runs in the clone for the command's project with the compose files mapped onto the clone in order and the final flag false. |
| Deploy.SwarmDeployInvocation | deploy.go:227-260 | The Swarm deploy runs docker with the stack deploy vector for the command's flags, files and project, inheriting the whole environment, with the project name as working directory. |
| Deploy.SwarmRunExecs | deploy.go:227-260 | The only process a Swarm deploy starts is the docker process built from its flags, files, project and clone path. |
| Deploy.ComposeUnreadFlags | deploy.go:22-141 | Keep, reference, TLS flag, environment list and registry credentials do not change the Compose deploy. |
| Deploy.SwarmUnreadFlags | deploy.go:143-271 | Keep, reference, TLS flag, environment list and registry credentials do not change the Swarm deploy. |
| Swarm.DeploySwarmStack | swarm.go:11-46 | The stack deploy vector for the command and clone, run in the clone with the command's environment list after the parent's; success iff the process succeeds, any failure is the generic error. |
| Swarm.SameVectorAsSwarmRun | swarm.go:13-35 | The Swarm deploy of deploy.go issues the same argument vector as deploySwarmStack for that clone (and the same binary if `getDockerBinaryPath` returns the docker binary inside `BIN_PATH`), differing only in environment and working directory. |
| Swarm.CheckRunningService | swarm.go:48-69 | Exactly the `stack services --format={{.ID}} <project>` call; a run error comes back unchanged; otherwise the IDs are the non-empty lines of the output, none empty. |
| Swarm.UpdateService | swarm.go:71-89 | Exactly the `service update <id> --force` call; success iff the call returned no error (its output, possibly empty, is ignored); a run error comes back unchanged. |
| Undeploy.RejectsUrlWithoutSlash | undeploy.go:20-27 | A URL without a slash fails with the generic error before the deployer is created, and only then does undeploy fail with no step. |
| Undeploy.LeavesWorkingDirectoryAlone | undeploy.go:14-64 | The Compose undeploy never creates, moves or removes a path, and every failure is the generic deployment error. |
| Undeploy.SucceedsExactlyWhen | undeploy.go:38-63 | The undeploy succeeds iff the URL has a slash, the deployer is created and the removal succeeds. |
| Undeploy.RemovesDeclaredFiles | undeploy.go:46-55 | The removal runs in the clone path for the command's project, with the compose files mapped onto the clone in order. |
| Undeploy.KeepUnread | undeploy.go:14-64 | The keep flag does not change the Compose undeploy. |
| Undeploy.SameClonePathAsDeploy | undeploy.go:28-30 | For the same URL and destination, the directory undeploy removes from is the directory deploy cloned into. |
| Undeploy.SwarmUndeploy | undeploy.go:66-78 | Exactly one step: docker (docker.exe on Windows) with `stack rm <project>`, nil environment, empty working directory; success iff docker succeeds, a failure's message is its standard error; no path changes. |
| Undeploy.SwarmUndeployReadsOnlyProject | undeploy.go:66-78 | Neither the keep flag nor the destination changes the Swarm undeploy. |

## Left out

- Git clone, Compose engine (deployer creation, deploy, remove) and process execution: foreign calls, modelled as success or failure answers in the host record.
- Operating system detection: `docker`/`docker.exe` and the `\n`/`\r\n` separator are chosen by a boolean parameter.
- `path.Join` cleaning: Join drops an empty element and otherwise inserts one slash; `.`/`..` elements and repeated slashes are not normalised.
- `os.MkdirAll` parents and the directories a clone creates below the clone path are not tracked; only the working root and the clone path enter the path set.
- The contents of the removed or moved directories beyond their path names, and file permissions.
- Workdir.Prepare: `filesystem.MoveDirectory` is not part of this model; the move is refused when the backup path itself is in the path set (as a rename cannot merge into an existing tree), with the fixed error text `BackupTaken`, and otherwise to succeed or fail as the host says.
- Host path sets are not required to be closed under parent directories; Workdir.BackupIsOldTree and Workdir.PrepareIsFresh assume it for the backup and the working root, since on a real file system a path below a directory implies the directory.
- `getDockerBinaryPath` and `runCommand`, used by swarm.go, are not part of this model: the binary path and the call's result are parameters.
- Reconciliation of services before and after a forced update: no implementation exists besides its two primitives, which are modelled.
- removedir.go, the logging setup, command-line parsing and exit codes, and context cancellation.
- How `exec` resolves a key that appears twice in `cmd.Env` (the later entry wins): the model stops at the list assigned to `cmd.Env`, parent environment first.
- Log and print side effects (including the echo of standard error on a failed process).

=== FILE: deploy.dfy ===
/** The two deploy commands of deploy.go. Both derive the repository name,
    prepare the working root, clone the repository into it and then deploy;
    they differ only in the clone depth and in the deployment step (the
    Compose engine, or `docker stack deploy`). */
module Deploy {
  import opened Types
  import opened System
  import opened Workdir
  import opened Paths
  import opened DockerArgs
  import opened Process

  /** The user name sent with a password when no user name is given. */
  const TokenUsername: string := "token"

  /** `getAuth`: no credentials unless a password is given; a password alone
      is sent with the placeholder user name "token". */
  function GetAuth(username: string, password: string): (r: Option<BasicAuth>)
    ensures r.None? <==> password == ""
    ensures r.Some? ==> r.value.password == password && r.value.username != ""
    ensures r.Some? && username != "" ==> r.value.username == username
    ensures r.Some? && username == "" ==> r.value.username == TokenUsername
  {
    if password != "" then
      Some(BasicAuth(if username == "" then TokenUsername else username, password))
    else None
  }

  /** A deploy request of either kind. */
  datatype Deployment = Compose(compose: DeployCommand) | Swarm(swarm: SwarmDeployCommand)
  {
    function Url(): string
    {
      if Compose? then compose.gitRepository else swarm.gitRepository
    }

    function Destination(): string
    {
      if Compose? then compose.destination else swarm.destination
    }

    function Auth(): Option<BasicAuth>
    {
      if Compose? then GetAuth(compose.user, compose.password) else GetAuth(swarm.user, swarm.password)
    }

    /** Clone depth: only the current tree for Compose, 100 commits for Swarm. */
    function Depth(): nat
    {
      if Compose? then 1 else 100
    }
  }

  /** `DeployCommand.Run` and `SwarmDeployCommand.Run`. */
  function Run(d: Deployment, h: Host): Report
  {
    match RepositoryName(d.Url())
    case None => Report(Failed(DeployComposeFailure), h.paths, [])
    case Some(repositoryName) =>
      var mount := MountPath(d.Destination());
      match Prepare(h, mount)
      case Aborted(error, paths, effects) => Report(Failed(error), paths, effects)
      case Ready(paths, backup, effects) =>
        var clonePath := Join(mount, repositoryName);
        Release(CloneAndDeploy(d, h, mount, clonePath, paths, effects), backup, h.removeOk)
  }

  /** The clone, then the deployment step; a clone failure is the generic
      deployment failure. A successful clone creates the clone directory and
      any missing parent. */
  function CloneAndDeploy(d: Deployment, h: Host, mount: string, clonePath: string,
                          paths: set<string>, effects: seq<Effect>): Report
  {
    var cloned := effects + [Clone(d.Url(), clonePath, d.Auth(), d.Depth())];
    if !h.cloneOk then Report(Failed(DeployComposeFailure), paths, cloned)
    else
      var step := DeployStep(d, h, clonePath);
      Report(step.status, paths + {mount, clonePath}, cloned + step.effects)
  }

  /** The status and the steps of the deployment proper. */
  datatype Step = Step(status: Status, effects: seq<Effect>)

  function DeployStep(d: Deployment, h: Host, clonePath: string): Step
  {
    match d
    case Compose(cmd) => ComposeStep(cmd, h, clonePath)
    case Swarm(cmd) => SwarmStep(cmd, h, clonePath)
  }

  /** Creation of the Compose deployer and the Compose deploy itself, with the
      clone as working directory and the final flag false. */
  function ComposeStep(cmd: DeployCommand, h: Host, clonePath: string): Step
  {
    if !h.deployerOk then Step(Failed(DeployComposeFailure), [CreateDeployer(BinPath)])
    else
      var files := ComposeFilePaths(clonePath, cmd.composeRelativeFilePaths);
      Step(if h.composeOk then Ok else Failed(DeployComposeFailure),
           [CreateDeployer(BinPath), ComposeUp(clonePath, cmd.projectName, files, false)])
  }

  /** `docker stack deploy`, run with an empty (non-nil) extra environment and
      the project name as working directory. */
  function SwarmStep(cmd: SwarmDeployCommand, h: Host, clonePath: string): Step
  {
    var x := SwarmExecution(cmd, h, clonePath);
    Step(if x.status.Ok? then Ok else Failed(DeployComposeFailure), [Exec(x.invocation)])
  }

  /** The docker process of the Swarm deploy. */
  function SwarmExecution(cmd: SwarmDeployCommand, h: Host, clonePath: string): Execution
  {
    var files := ComposeFilePaths(clonePath, cmd.composeRelativeFilePaths);
    var args := StackDeployArgs(cmd.prune, cmd.pull, files, cmd.projectName);
    RunCommandAndCaptureStdErr(DockerCommand(BinPath, h.windows), args, Some([]), cmd.projectName, h.environ, h.docker)
  }

  /** The steps of a run that got past preparation: the preparation step,
      the clone, the deployment steps if the clone succeeded, and the backup
      removal if there is a backup. */
  lemma RunEffects(d: Deployment, h: Host)
    requires '/' in d.Url()
    requires Prepare(h, MountPath(d.Destination())).Ready?
    ensures var p := Prepare(h, MountPath(d.Destination()));
            var clonePath := ClonePathOf(d.Url(), d.Destination()).value;
            Run(d, h).effects
            == p.effects + [Clone(d.Url(), clonePath, d.Auth(), d.Depth())]
               + (if h.cloneOk then DeployStep(d, h, clonePath).effects else [])
               + (if p.backup.Some? then [RemoveAll(p.backup.value)] else [])
  {
    var mount := MountPath(d.Destination());
    var p := Prepare(h, mount);
    var clonePath := ClonePathOf(d.Url(), d.Destination()).value;
    var body := CloneAndDeploy(d, h, mount, clonePath, p.paths, p.effects);
    assert Run(d, h) == Release(body, p.backup, h.removeOk);
    if !h.cloneOk {
      assert body.effects == body.effects + [];
    }
  }

  /** The clone path both deploy commands use for a URL and destination. */
  function ClonePathOf(url: string, destination: string): Option<string>
  {
    match RepositoryName(url)
    case None => None
    case Some(name) => Some(Join(MountPath(destination), name))
  }


  /** A URL without a slash is rejected with the generic deployment failure
      before any step is taken, and it is the only way to fail without a step
      and with that error. */
  lemma RejectsUrlWithoutSlash(d: Deployment, h: Host)
    ensures '/' !in d.Url() <==> Run(d, h) == Report(Failed(DeployComposeFailure), h.paths, [])
  {
  }

  /** A stat error other than "does not exist" comes back unchanged, before
      any step is taken. */
  lemma StatErrorReturnedUnchanged(d: Deployment, h: Host)
    requires '/' in d.Url() && h.statFault.Some?
    ensures Run(d, h) == Report(Failed(OsError(h.statFault.value)), h.paths, [])
  {
  }

  /** A missing working root is created first and still exists at the end;
      nothing is moved or removed. If creating it fails, the command stops
      there with the generic deployment failure. */
  lemma MissingMountCreated(d: Deployment, h: Host)
    requires '/' in d.Url() && h.statFault.None? && MountPath(d.Destination()) !in h.paths
    ensures var r := Run(d, h);
            && |r.effects| > 0
            && r.effects[0] == MakeDir(MountPath(d.Destination()))
            && (h.mkdirOk ==> MountPath(d.Destination()) in r.paths)
            && (forall e :: e in r.effects ==> !e.MoveDir? && !e.RemoveAll?)
            && (!h.mkdirOk ==> r == Report(Failed(DeployComposeFailure), h.paths, [MakeDir(MountPath(d.Destination()))]))
  {
    var mount := MountPath(d.Destination());
    if h.mkdirOk {
      var p := Prepare(h, mount);
      var name := RepositoryName(d.Url()).value;
      var clonePath := Join(mount, name);
      var body := CloneAndDeploy(d, h, mount, clonePath, p.paths, p.effects);
      assert Run(d, h) == body;
      RunEffects(d, h);
      DeployStepsStayInPlace(d, h, clonePath);
    }
  }

  /** An existing working root is first moved to its backup, before the
      clone. A failed move comes back unchanged and stops the command; a
      backup already in place fails the move. After a successful move the
      backup is removed as the very last step on every exit path, and when
      the removal succeeds nothing of the backup remains. */
  lemma ExistingMountBackedUp(d: Deployment, h: Host)
    requires '/' in d.Url() && h.statFault.None? && MountPath(d.Destination()) in h.paths
    ensures var mount := MountPath(d.Destination());
            var r := Run(d, h);
            && |r.effects| > 0
            && r.effects[0] == MoveDir(mount, BackupPath(mount))
            && (BackupPath(mount) in h.paths ==>
                  r == Report(Failed(OsError(BackupTaken)), h.paths, [MoveDir(mount, BackupPath(mount))]))
            && (BackupPath(mount) !in h.paths && h.moveFault.Some? ==>
                  r == Report(Failed(OsError(h.moveFault.value)), h.paths, [MoveDir(mount, BackupPath(mount))]))
            && (BackupPath(mount) !in h.paths && h.moveFault.None? ==>
                  && r.effects[|r.effects| - 1] == RemoveAll(BackupPath(mount))
                  && (h.removeOk ==> forall p :: p in r.paths ==> !Under(p, BackupPath(mount))))
  {
    var mount := MountPath(d.Destination());
    var name := RepositoryName(d.Url()).value;
    if MoveError(h, BackupPath(mount)).None? {
      var p := Prepare(h, mount);
      var body := CloneAndDeploy(d, h, mount, Join(mount, name), p.paths, p.effects);
      assert Run(d, h) == Release(body, Some(BackupPath(mount)), h.removeOk);
    }
  }

  /** A deploy only touches the working root and its backup: every other path
      that existed before still exists afterwards, on every exit path. */
  lemma KeepsUnrelatedPaths(d: Deployment, h: Host)
    ensures var mount := MountPath(d.Destination());
            forall p :: p in h.paths && !Under(p, mount) && !Under(p, BackupPath(mount)) ==>
              p in Run(d, h).paths
  {
    var mount := MountPath(d.Destination());
    match RepositoryName(d.Url())
    case None =>
    case Some(name) =>
      match Prepare(h, mount)
      case Aborted(_, _, _) =>
      case Ready(paths, backup, effects) =>
        var body := CloneAndDeploy(d, h, mount, Join(mount, name), paths, effects);
        assert Run(d, h) == Release(body, backup, h.removeOk);
        assert paths <= body.paths;
        assert backup.Some? ==> backup.value == BackupPath(mount);
        forall p | p in h.paths && !Under(p, mount) && !Under(p, BackupPath(mount))
          ensures p in Run(d, h).paths
        {
          assert p in paths;
        }
  }

  /** A backup that an earlier deploy failed to remove blocks the next deploy
      into the same destination: once a run has moved the root aside and
      cloned, a failed removal leaves the backup behind, and a later run over
      those paths stops at the move with the refusal. */
  lemma LeftoverBackupBlocksNextRun(d: Deployment, h: Host, next: Host)
    requires '/' in d.Url() && h.statFault.None? && MountPath(d.Destination()) in h.paths
    requires Prepare(h, MountPath(d.Destination())).Ready? && h.cloneOk && !h.removeOk
    requires next.paths == Run(d, h).paths && next.statFault.None?
    ensures var mount := MountPath(d.Destination());
            Run(d, next) == Report(Failed(OsError(BackupTaken)), next.paths, [MoveDir(mount, BackupPath(mount))])
  {
    var mount := MountPath(d.Destination());
    var name := RepositoryName(d.Url()).value;
    var p := Prepare(h, mount);
    var body := CloneAndDeploy(d, h, mount, Join(mount, name), p.paths, p.effects);
    assert Run(d, h) == Release(body, p.backup, false);
    assert BackupPath(mount) in next.paths;
    assert mount in next.paths;
  }

  /** Whether the backup removal succeeds changes neither the returned error
      nor the steps taken: a removal failure is only logged. */
  lemma RemovalFailureOnlyLogged(d: Deployment, h: Host)
    ensures Run(d, h.(removeOk := true)).status == Run(d, h.(removeOk := false)).status
    ensures Run(d, h.(removeOk := true)).effects == Run(d, h.(removeOk := false)).effects
  {
    var mount := MountPath(d.Destination());
    match RepositoryName(d.Url())
    case None =>
    case Some(name) =>
      PrepareIgnoresRemoval(h, mount);
      match Prepare(h, mount)
      case Aborted(_, _, _) =>
      case Ready(paths, backup, effects) =>
        var body := CloneAndDeploy(d, h, mount, Join(mount, name), paths, effects);
        CloneIgnoresRemoval(d, h, mount, Join(mount, name), paths, effects);
        assert Run(d, h.(removeOk := true)) == Release(body, backup, true);
        assert Run(d, h.(removeOk := false)) == Release(body, backup, false);
  }

  lemma PrepareIgnoresRemoval(h: Host, mount: string)
    ensures Prepare(h.(removeOk := true), mount) == Prepare(h, mount)
    ensures Prepare(h.(removeOk := false), mount) == Prepare(h, mount)
  {
    assert Stat(h.(removeOk := true), mount) == Stat(h, mount);
    assert Stat(h.(removeOk := false), mount) == Stat(h, mount);
  }

  lemma CloneIgnoresRemoval(d: Deployment, h: Host, mount: string, clonePath: string,
                            paths: set<string>, effects: seq<Effect>)
    ensures CloneAndDeploy(d, h.(removeOk := true), mount, clonePath, paths, effects)
            == CloneAndDeploy(d, h, mount, clonePath, paths, effects)
    ensures CloneAndDeploy(d, h.(removeOk := false), mount, clonePath, paths, effects)
            == CloneAndDeploy(d, h, mount, clonePath, paths, effects)
  {
    assert DeployStep(d, h.(removeOk := true), clonePath) == DeployStep(d, h, clonePath);
    assert DeployStep(d, h.(removeOk := false), clonePath) == DeployStep(d, h, clonePath);
  }

  /** A deploy succeeds exactly when the URL has a slash, the working root
      could be prepared, the clone succeeded and the deployment step
      succeeded. Every failure after preparation is the generic deployment
      failure; only stat and move errors pass through as they are. */
  lemma SucceedsExactlyWhen(d: Deployment, h: Host)
    ensures var mount := MountPath(d.Destination());
            Run(d, h).status == Ok <==>
              && '/' in d.Url()
              && h.statFault.None?
              && (mount in h.paths ==> h.moveFault.None? && BackupPath(mount) !in h.paths)
              && (mount !in h.paths ==> h.mkdirOk)
              && h.cloneOk
              && (d.Compose? ==> h.deployerOk && h.composeOk)
              && (d.Swarm? ==> h.docker.success)
    ensures Run(d, h).status.Failed? ==>
              Run(d, h).status.error == DeployComposeFailure || Run(d, h).status.error.OsError?
  {
    var mount := MountPath(d.Destination());
    match RepositoryName(d.Url())
    case None =>
    case Some(name) =>
      match Prepare(h, mount)
      case Aborted(_, _, _) =>
      case Ready(paths, backup, effects) =>
        var body := CloneAndDeploy(d, h, mount, Join(mount, name), paths, effects);
        assert Run(d, h).status == body.status;
  }

  /** Every clone goes to the clone path derived from the URL and the
      destination, with the credentials of `getAuth` and the command's depth. */
  lemma CloneTarget(d: Deployment, h: Host)
    ensures forall e :: e in Run(d, h).effects && e.Clone? ==>
              && ClonePathOf(d.Url(), d.Destination()) == Some(e.path)
              && e.url == d.Url()
              && e.auth == d.Auth()
              && e.depth == (if d.Compose? then 1 else 100)
  {
    RunClones(d, h);
  }

  /** The one clone a run can make. */
  lemma RunClones(d: Deployment, h: Host)
    ensures forall e :: e in Run(d, h).effects && e.Clone? ==>
              && ClonePathOf(d.Url(), d.Destination()).Some?
              && e == Clone(d.Url(), ClonePathOf(d.Url(), d.Destination()).value, d.Auth(), d.Depth())
  {
    var mount := MountPath(d.Destination());
    if '/' in d.Url() {
      var p := Prepare(h, mount);
      PrepareStepKinds(h, mount);
      if p.Ready? {
        RunEffects(d, h);
        ClonesAfterPrepare(d, h, ClonePathOf(d.Url(), d.Destination()).value, p.effects, p.backup);
      } else {
        assert Run(d, h).effects == p.effects;
      }
    }
  }

  lemma ClonesAfterPrepare(d: Deployment, h: Host, clonePath: string,
                           prepared: seq<Effect>, backup: Option<string>)
    requires forall e :: e in prepared ==> e.MakeDir? || e.MoveDir?
    ensures var clone := Clone(d.Url(), clonePath, d.Auth(), d.Depth());
            forall e :: (&& e in prepared + [clone]
                                   + (if h.cloneOk then DeployStep(d, h, clonePath).effects else [])
                                   + (if backup.Some? then [RemoveAll(backup.value)] else [])
                         && e.Clone?) ==> e == clone
  {
    var clone := Clone(d.Url(), clonePath, d.Auth(), d.Depth());
    var steps := if h.cloneOk then DeployStep(d, h, clonePath).effects else [];
    var release := if backup.Some? then [RemoveAll(backup.value)] else [];
    DeployStepsAreNotClones(d, h, clonePath);
    forall e | e in prepared + [clone] + steps + release && e.Clone?
      ensures e == clone
    {
    }
  }

  /** The deployment proper never clones. */
  lemma DeployStepsAreNotClones(d: Deployment, h: Host, clonePath: string)
    ensures forall e :: e in DeployStep(d, h, clonePath).effects ==> !e.Clone?
  {
  }

  /** The deployment proper never moves or removes a directory. */
  lemma DeployStepsStayInPlace(d: Deployment, h: Host, clonePath: string)
    ensures forall e :: e in DeployStep(d, h, clonePath).effects ==> !e.MoveDir? && !e.RemoveAll?
  {
  }

  /** The Compose deploy runs in the clone, for the command's project, with
      the compose files mapped onto the clone in input order and the final
      flag false. */
  lemma ComposeDeployStep(cmd: DeployCommand, h: Host)
    ensures forall e :: e in Run(Compose(cmd), h).effects && e.ComposeUp? ==>
              && ClonePathOf(cmd.gitRepository, cmd.destination) == Some(e.workingDir)
              && e.projectName == cmd.projectName
              && |e.composeFiles| == |cmd.composeRelativeFilePaths|
              && (forall i :: 0 <= i < |e.composeFiles| ==>
                    e.composeFiles[i] == Join(e.workingDir, cmd.composeRelativeFilePaths[i]))
              && !e.forceRecreate
  {
    if '/' in cmd.gitRepository {
      RunComposeUps(cmd, h);
    }
  }

  /** The one Compose deploy a run can issue. */
  lemma RunComposeUps(cmd: DeployCommand, h: Host)
    requires '/' in cmd.gitRepository
    ensures var clonePath := ClonePathOf(cmd.gitRepository, cmd.destination).value;
            var files := ComposeFilePaths(clonePath, cmd.composeRelativeFilePaths);
            forall e :: e in Run(Compose(cmd), h).effects && e.ComposeUp? ==>
              e == ComposeUp(clonePath, cmd.projectName, files, false)
  {
    var d := Compose(cmd);
    var mount := MountPath(d.Destination());
    var p := Prepare(h, mount);
    PrepareStepKinds(h, mount);
    if p.Ready? {
      RunEffects(d, h);
      ComposeUpsAfterPrepare(cmd, h, ClonePathOf(d.Url(), d.Destination()).value, p.effects, p.backup);
    } else {
      assert Run(d, h).effects == p.effects;
    }
  }

  /** Preparation only creates or moves directories. */
  lemma PrepareStepKinds(h: Host, mount: string)
    ensures forall e :: e in Prepare(h, mount).effects ==> e.MakeDir? || e.MoveDir?
  {
  }

  lemma ComposeUpsAfterPrepare(cmd: DeployCommand, h: Host, clonePath: string,
                               prepared: seq<Effect>, backup: Option<string>)
    requires forall e :: e in prepared ==> e.MakeDir? || e.MoveDir?
    ensures var d := Compose(cmd);
            var up := ComposeUp(clonePath, cmd.projectName, ComposeFilePaths(clonePath, cmd.composeRelativeFilePaths), false);
            forall e :: (&& e in prepared + [Clone(d.Url(), clonePath, d.Auth(), d.Depth())]
                                   + (if h.cloneOk then DeployStep(d, h, clonePath).effects else [])
                                   + (if backup.Some? then [RemoveAll(backup.value)] else [])
                         && e.ComposeUp?) ==> e == up
  {
    var d := Compose(cmd);
    var clone := Clone(d.Url(), clonePath, d.Auth(), d.Depth());
    var steps := if h.cloneOk then DeployStep(d, h, clonePath).effects else [];
    var release := if backup.Some? then [RemoveAll(backup.value)] else [];
    var up := ComposeUp(clonePath, cmd.projectName, ComposeFilePaths(clonePath, cmd.composeRelativeFilePaths), false);
    assert forall e :: e in steps && e.ComposeUp? ==> e == up;
    forall e | e in prepared + [clone] + steps + release && e.ComposeUp?
      ensures e == up
    {
    }
  }

  /** The Swarm deploy starts the docker binary with the `stack deploy`
      vector for the command's flags, files and project, inheriting the whole
      environment (the extra list is empty), with the project name as working
      directory. */
  lemma SwarmDeployInvocation(cmd: SwarmDeployCommand, h: Host)
    ensures forall e :: e in Run(Swarm(cmd), h).effects && e.Exec? ==>
              && ClonePathOf(cmd.gitRepository, cmd.destination).Some?
              && var clonePath := ClonePathOf(cmd.gitRepository, cmd.destination).value;
                 && e.invocation.command == DockerCommand(BinPath, h.windows)
                 && Parse(e.invocation.args)
                    == Some(StackDeploy(cmd.prune, cmd.pull,
                                        ComposeFilePaths(clonePath, cmd.composeRelativeFilePaths), cmd.projectName))
                 && ChildEnvironment(e.invocation, h.environ) == h.environ
                 && e.invocation.dir == cmd.projectName
  {
    SwarmRunExecs(cmd, h);
    if '/' in cmd.gitRepository {
      var clonePath := ClonePathOf(cmd.gitRepository, cmd.destination).value;
      var files := ComposeFilePaths(clonePath, cmd.composeRelativeFilePaths);
      StackDeployRoundTrip(cmd.prune, cmd.pull, files, cmd.projectName);
      assert h.environ + [] == h.environ;
    }
  }

  /** The only process a Swarm deploy starts is its docker process. */
  lemma SwarmRunExecs(cmd: SwarmDeployCommand, h: Host)
    ensures forall e :: e in Run(Swarm(cmd), h).effects && e.Exec? ==>
              && ClonePathOf(cmd.gitRepository, cmd.destination).Some?
              && e == Exec(SwarmExecution(cmd, h, ClonePathOf(cmd.gitRepository, cmd.destination).value).invocation)
  {
    var d := Swarm(cmd);
    var mount := MountPath(d.Destination());
    if '/' in d.Url() {
      var p := Prepare(h, mount);
      PrepareStepKinds(h, mount);
      if p.Ready? {
        RunEffects(d, h);
        ExecsAfterPrepare(cmd, h, ClonePathOf(d.Url(), d.Destination()).value, p.effects, p.backup);
      } else {
        assert Run(d, h).effects == p.effects;
      }
    }
  }

  lemma ExecsAfterPrepare(cmd: SwarmDeployCommand, h: Host, clonePath: string,
                          prepared: seq<Effect>, backup: Option<string>)
    requires forall e :: e in prepared ==> e.MakeDir? || e.MoveDir?
    ensures var d := Swarm(cmd);
            var exec := Exec(SwarmExecution(cmd, h, clonePath).invocation);
            forall e :: (&& e in prepared + [Clone(d.Url(), clonePath, d.Auth(), d.Depth())]
                                   + (if h.cloneOk then DeployStep(d, h, clonePath).effects else [])
                                   + (if backup.Some? then [RemoveAll(backup.value)] else [])
                         && e.Exec?) ==> e == exec
  {
    var d := Swarm(cmd);
    var clone := Clone(d.Url(), clonePath, d.Auth(), d.Depth());
    var steps := if h.cloneOk then DeployStep(d, h, clonePath).effects else [];
    var release := if backup.Some? then [RemoveAll(backup.value)] else [];
    var exec := Exec(SwarmExecution(cmd, h, clonePath).invocation);
    assert steps == if h.cloneOk then [exec] else [];
    forall e | e in prepared + [clone] + steps + release && e.Exec?
      ensures e == exec
    {
    }
  }

  /** The keep flag, the Git reference, the TLS flag, the environment list and
      the registry credentials are accepted but never read by the Compose
      deploy. */
  lemma ComposeUnreadFlags(cmd: DeployCommand, h: Host,
                           keep: bool, reference: string, skip: bool, env: Option<seq<string>>, registry: seq<string>)
    ensures Run(Compose(cmd.(keep := keep, reference := reference, skipTlsVerify := skip, env := env, registry := registry)), h)
            == Run(Compose(cmd), h)
  {
    var d := Compose(cmd.(keep := keep, reference := reference, skipTlsVerify := skip, env := env, registry := registry));
    forall clonePath: string
      ensures DeployStep(d, h, clonePath) == DeployStep(Compose(cmd), h, clonePath)
    {
    }
  }

  /** The same flags are never read by the Swarm deploy either: in particular
      the environment list does not reach `docker stack deploy`. */
  lemma SwarmUnreadFlags(cmd: SwarmDeployCommand, h: Host,
                         keep: bool, reference: string, skip: bool, env: Option<seq<string>>, registry: seq<string>)
    ensures Run(Swarm(cmd.(keep := keep, reference := reference, skipTlsVerify := skip, env := env, registry := registry)), h)
            == Run(Swarm(cmd), h)
  {
    var d := Swarm(cmd.(keep := keep, reference := reference, skipTlsVerify := skip, env := env, registry := registry));
    forall clonePath: string
      ensures DeployStep(d, h, clonePath) == DeployStep(Swarm(cmd), h, clonePath)
    {
    }
  }
}

=== FILE: dockerargs.dfy ===
/** The docker command lines the core issues, as argument vectors. Each
    request kind has one encoder (`Args`) and one decoder (`Parse`); every
    vector the core builds decodes back to the request it was built from. */
module DockerArgs {
  import opened Types
  import Paths

  /** A docker request, before it is written out as arguments. */
  datatype Request =
    | StackDeploy(prune: bool, pull: bool, composeFiles: seq<string>, projectName: string)
    | StackServices(projectName: string)
    | ServiceUpdate(serviceId: string)
    | StackRm(projectName: string)
    | ConfigOption(configPath: string)

  /** The Go template that makes `stack services` print one service ID per line. */
  const FormatIds: string := "--format={{.ID}}"

  /** The path of the docker binary in `binPath`; `docker.exe` on Windows. */
  function DockerCommand(binPath: string, windows: bool): string
  {
    Paths.Join(binPath, if windows then "docker.exe" else "docker")
  }

  /** Number of arguments of `stack deploy` ahead of the compose files. */
  function OptionCount(prune: bool, pull: bool): nat
  {
    3 + (if prune then 1 else 0) + (if pull then 0 else 1)
  }

  function DeployOptions(prune: bool, pull: bool): seq<string>
  {
    (if prune then ["stack", "deploy", "--prune", "--with-registry-auth"]
     else ["stack", "deploy", "--with-registry-auth"])
    + (if !pull then ["--resolve-image=never"] else [])
  }

  /** One `--compose-file <path>` pair per compose file, in order. */
  function ComposeFileArgs(files: seq<string>): seq<string>
  {
    if |files| == 0 then [] else ["--compose-file", files[0]] + ComposeFileArgs(files[1..])
  }

  lemma {:induction false} ComposeFileArgsShape(files: seq<string>)
    ensures var r := ComposeFileArgs(files);
            && |r| == 2 * |files|
            && forall i :: 0 <= i < |files| ==> r[2 * i] == "--compose-file" && r[2 * i + 1] == files[i]
  {
    if |files| > 0 {
      var rest := ComposeFileArgs(files[1..]);
      var r := ["--compose-file", files[0]] + rest;
      ComposeFileArgsShape(files[1..]);
      forall i | 1 <= i < |files|
        ensures r[2 * i] == "--compose-file" && r[2 * i + 1] == files[i]
      {
        assert r[2 * i] == rest[2 * (i - 1)];
        assert r[2 * i + 1] == rest[2 * (i - 1) + 1];
      }
    }
  }

  /** The `stack deploy` argument vector, in the order deploy.go appends it. */
  function StackDeployArgs(prune: bool, pull: bool, files: seq<string>, projectName: string): seq<string>
  {
    DeployOptions(prune, pull) + ComposeFileArgs(files) + [projectName]
  }

  /** The shape of `stack deploy`: the subcommand, `--prune` exactly when
      pruning, `--with-registry-auth` always, `--resolve-image=never` exactly
      when not pulling, then a `--compose-file` pair per file in input order,
      and the project name last. */
  lemma StackDeployArgsShape(prune: bool, pull: bool, files: seq<string>, projectName: string)
    ensures var r := StackDeployArgs(prune, pull, files, projectName);
            var b := OptionCount(prune, pull);
            && |r| == b + 2 * |files| + 1
            && r[..2] == ["stack", "deploy"]
            && "--with-registry-auth" in r[..b]
            && ("--prune" in r[..b] <==> prune)
            && ("--resolve-image=never" in r[..b] <==> !pull)
            && (forall i :: 0 <= i < |files| ==>
                  r[b + 2 * i] == "--compose-file" && r[b + 2 * i + 1] == files[i])
            && r[|r| - 1] == projectName
  {
    var options := DeployOptions(prune, pull);
    var pairs := ComposeFileArgs(files);
    var r := options + pairs + [projectName];
    var b := OptionCount(prune, pull);
    ComposeFileArgsShape(files);
    assert |options| == b;
    assert r[..b] == options;
    assert r[..2] == options[..2];
    forall i | 0 <= i < |files|
      ensures r[b + 2 * i] == "--compose-file" && r[b + 2 * i + 1] == files[i]
    {
      assert r[b + 2 * i] == pairs[2 * i];
      assert r[b + 2 * i + 1] == pairs[2 * i + 1];
    }
  }

  /** The argument vector of a request. */
  function Args(req: Request): seq<string>
  {
    match req
    case StackDeploy(prune, pull, files, projectName) => StackDeployArgs(prune, pull, files, projectName)
    case StackServices(projectName) => ["stack", "services", FormatIds, projectName]
    case ServiceUpdate(serviceId) => ["service", "update", serviceId, "--force"]
    case StackRm(projectName) => ["stack", "rm", projectName]
    case ConfigOption(configPath) => ["--config", configPath]
  }

  /** Reads back `--compose-file <path>` pairs. */
  function ParseComposeFiles(xs: seq<string>): Option<seq<string>>
  {
    if |xs| == 0 then Some([])
    else if |xs| >= 2 && xs[0] == "--compose-file" then
      match ParseComposeFiles(xs[2..])
      case None => None
      case Some(files) => Some([xs[1]] + files)
    else None
  }

  /** Reads back what follows `stack deploy`. The option block is recognised
      by position and the parity of what remains, so a compose path or a
      project name that happens to look like an option is not misread. */
  function ParseStackDeploy(rest: seq<string>): Option<Request>
  {
    var prune := |rest| > 0 && rest[0] == "--prune";
    var afterPrune := if prune then rest[1..] else rest;
    if |afterPrune| == 0 || afterPrune[0] != "--with-registry-auth" then None
    else ParseStackDeployTail(prune, afterPrune[1..])
  }

  /** Reads back the optional `--resolve-image=never`, the compose file pairs
      and the project name. */
  function ParseStackDeployTail(prune: bool, afterAuth: seq<string>): Option<Request>
  {
    var pull := !(|afterAuth| % 2 == 0 && |afterAuth| > 0 && afterAuth[0] == "--resolve-image=never");
    var tail := if pull then afterAuth else afterAuth[1..];
    if |tail| % 2 == 0 then None
    else
      match ParseComposeFiles(tail[..|tail| - 1])
      case None => None
      case Some(files) => Some(StackDeploy(prune, pull, files, tail[|tail| - 1]))
  }

  /** Decodes an argument vector into the request it expresses, if any. */
  function Parse(args: seq<string>): Option<Request>
  {
    if |args| >= 2 && args[0] == "stack" && args[1] == "deploy" then ParseStackDeploy(args[2..])
    else if |args| == 4 && args[0] == "stack" && args[1] == "services" && args[2] == FormatIds then
      Some(StackServices(args[3]))
    else if |args| == 3 && args[0] == "stack" && args[1] == "rm" then Some(StackRm(args[2]))
    else if |args| == 4 && args[0] == "service" && args[1] == "update" && args[3] == "--force" then
      Some(ServiceUpdate(args[2]))
    else if |args| == 2 && args[0] == "--config" then Some(ConfigOption(args[1]))
    else None
  }

  lemma {:induction false} ParseComposeFileArgs(files: seq<string>)
    ensures ParseComposeFiles(ComposeFileArgs(files)) == Some(files)
  {
    if |files| > 0 {
      var xs := ComposeFileArgs(files);
      assert xs[2..] == ComposeFileArgs(files[1..]);
      ParseComposeFileArgs(files[1..]);
      assert [files[0]] + files[1..] == files;
    }
  }

  lemma Parity(n: nat)
    ensures (2 * n + 1) % 2 == 1 && (2 * n + 2) % 2 == 0
  {
  }

  lemma StackDeployTailRoundTrip(prune: bool, pull: bool, files: seq<string>, projectName: string)
    ensures var tail := ComposeFileArgs(files) + [projectName];
            ParseStackDeployTail(prune, (if pull then [] else ["--resolve-image=never"]) + tail)
            == Some(StackDeploy(prune, pull, files, projectName))
  {
    var tail := ComposeFileArgs(files) + [projectName];
    FilesAndProject(files, projectName);
    ParseTail(prune, pull, (if pull then [] else ["--resolve-image=never"]) + tail, tail, files, projectName);
  }

  /** Any odd-length tail whose pairs decode and whose last element is the
      project name decodes, behind the optional `--resolve-image=never`. */
  lemma ParseTail(prune: bool, pull: bool, afterAuth: seq<string>, tail: seq<string>,
                  files: seq<string>, projectName: string)
    requires afterAuth == (if pull then [] else ["--resolve-image=never"]) + tail
    requires |tail| % 2 == 1
    requires ParseComposeFiles(tail[..|tail| - 1]) == Some(files)
    requires tail[|tail| - 1] == projectName
    ensures ParseStackDeployTail(prune, afterAuth) == Some(StackDeploy(prune, pull, files, projectName))
  {
    if pull {
      assert afterAuth == tail;
    } else {
      assert |afterAuth| == |tail| + 1;
      assert afterAuth[0] == "--resolve-image=never";
      assert afterAuth[1..] == tail;
    }
  }

  /** The file pairs followed by the project name: odd length, the pairs
      decode back to the files, and the name is last. */
  lemma FilesAndProject(files: seq<string>, projectName: string)
    ensures var tail := ComposeFileArgs(files) + [projectName];
            && |tail| % 2 == 1
            && ParseComposeFiles(tail[..|tail| - 1]) == Some(files)
            && tail[|tail| - 1] == projectName
  {
    var pairs := ComposeFileArgs(files);
    var tail := pairs + [projectName];
    assert |tail| == 2 * |files| + 1 by {
      ComposeFileArgsShape(files);
    }
    Parity(|files|);
    assert tail[..|tail| - 1] == pairs;
    ParseComposeFileArgs(files);
  }

  /** What follows `stack deploy`, split at the options. */
  function AfterSubcommand(prune: bool, pull: bool, files: seq<string>, projectName: string): seq<string>
  {
    (if prune then ["--prune"] else []) + (["--with-registry-auth"] + AfterAuth(pull, files, projectName))
  }

  function AfterAuth(pull: bool, files: seq<string>, projectName: string): seq<string>
  {
    (if pull then [] else ["--resolve-image=never"]) + (ComposeFileArgs(files) + [projectName])
  }

  lemma StackDeployLayout(prune: bool, pull: bool, files: seq<string>, projectName: string)
    ensures StackDeployArgs(prune, pull, files, projectName)
            == ["stack", "deploy"] + AfterSubcommand(prune, pull, files, projectName)
  {
    var noPull := if pull then [] else ["--resolve-image=never"];
    assert DeployOptions(prune, pull)
           == ["stack", "deploy"] + (if prune then ["--prune"] else []) + ["--with-registry-auth"] + noPull;
  }

  lemma ParseAfterSubcommand(prune: bool, pull: bool, files: seq<string>, projectName: string)
    ensures ParseStackDeploy(AfterSubcommand(prune, pull, files, projectName))
            == ParseStackDeployTail(prune, AfterAuth(pull, files, projectName))
  {
    var afterPrune := ["--with-registry-auth"] + AfterAuth(pull, files, projectName);
    var rest := AfterSubcommand(prune, pull, files, projectName);
    assert (if prune then rest[1..] else rest) == afterPrune;
    assert afterPrune[1..] == AfterAuth(pull, files, projectName);
  }

  lemma StackDeployRoundTrip(prune: bool, pull: bool, files: seq<string>, projectName: string)
    ensures Parse(StackDeployArgs(prune, pull, files, projectName)) == Some(StackDeploy(prune, pull, files, projectName))
  {
    var args := StackDeployArgs(prune, pull, files, projectName);
    StackDeployLayout(prune, pull, files, projectName);
    assert args[2..] == AfterSubcommand(prune, pull, files, projectName);
    ParseAfterSubcommand(prune, pull, files, projectName);
    StackDeployTailRoundTrip(prune, pull, files, projectName);
  }

  /** Every request decodes back from its argument vector. */
  lemma ParseArgs(req: Request)
    ensures Parse(Args(req)) == Some(req)
  {
    if req.StackDeploy? {
      StackDeployRoundTrip(req.prune, req.pull, req.composeFiles, req.projectName);
    }
  }

  /** Different requests never share an argument vector. */
  lemma ArgsInjective(a: Request, b: Request)
    ensures Args(a) == Args(b) ==> a == b
  {
    ParseArgs(a);
    ParseArgs(b);
  }

  /** Decoded compose file pairs encode back to the very arguments read. */
  lemma {:induction false} ComposeFileArgsOfParse(xs: seq<string>)
    ensures ParseComposeFiles(xs).Some? ==> ComposeFileArgs(ParseComposeFiles(xs).value) == xs
  {
    if |xs| >= 2 && xs[0] == "--compose-file" && ParseComposeFiles(xs[2..]).Some? {
      var rest := ParseComposeFiles(xs[2..]).value;
      var files := [xs[1]] + rest;
      ComposeFileArgsOfParse(xs[2..]);
      assert files[1..] == rest;
      assert xs == ["--compose-file", xs[1]] + xs[2..];
    }
  }

  /** What follows `--with-registry-auth` encodes back from its decoding. */
  lemma AfterAuthOfParse(prune: bool, afterAuth: seq<string>, r: Request)
    requires ParseStackDeployTail(prune, afterAuth) == Some(r)
    ensures r.StackDeploy? && r.prune == prune
    ensures AfterAuth(r.pull, r.composeFiles, r.projectName) == afterAuth
  {
    var tail := if r.pull then afterAuth else afterAuth[1..];
    ComposeFileArgsOfParse(tail[..|tail| - 1]);
    assert tail == tail[..|tail| - 1] + [tail[|tail| - 1]];
    if !r.pull {
      assert afterAuth == ["--resolve-image=never"] + tail;
    }
  }

  /** What follows `stack deploy` encodes back from its decoding. */
  lemma AfterSubcommandOfParse(rest: seq<string>, r: Request)
    requires ParseStackDeploy(rest) == Some(r)
    ensures r.StackDeploy?
    ensures AfterSubcommand(r.prune, r.pull, r.composeFiles, r.projectName) == rest
  {
    if |rest| > 0 && rest[0] == "--prune" {
      AfterAuthOfParse(true, rest[2..], r);
      assert rest == ["--prune"] + (["--with-registry-auth"] + rest[2..]);
    } else {
      AfterAuthOfParse(false, rest[1..], r);
      assert rest == ["--with-registry-auth"] + rest[1..];
    }
  }

  /** A decoded `stack deploy` vector is exactly its request's vector. */
  lemma StackDeployOfParse(rest: seq<string>, r: Request)
    requires ParseStackDeploy(rest) == Some(r)
    ensures ["stack", "deploy"] + rest == Args(r)
  {
    AfterSubcommandOfParse(rest, r);
    StackDeployLayout(r.prune, r.pull, r.composeFiles, r.projectName);
  }

  /** Whatever decodes, decodes from exactly its request's vector. */
  lemma ParseExact(v: seq<string>, r: Request)
    requires Parse(v) == Some(r)
    ensures v == Args(r)
  {
    if |v| >= 2 && v[0] == "stack" && v[1] == "deploy" {
      StackDeployOfParse(v[2..], r);
      assert v == ["stack", "deploy"] + v[2..];
    } else if r.StackServices? {
      assert v == ["stack", "services", FormatIds, v[3]];
    } else if r.StackRm? {
      assert v == ["stack", "rm", v[2]];
    } else if r.ServiceUpdate? {
      assert v == ["service", "update", v[2], "--force"];
    } else {
      assert v == ["--config", v[1]];
    }
  }

  /** A vector decodes to a request exactly when it is that request's vector:
      the decoder accepts nothing but what the encoder produces. */
  lemma ParseIffArgs(v: seq<string>, req: Request)
    ensures Parse(v) == Some(req) <==> v == Args(req)
  {
    ParseArgs(req);
    if Parse(v) == Some(req) {
      ParseExact(v, req);
    }
  }

  /** `prepareDockerCommandAndArgs`: the docker binary and the global
      `--config <path>` option; it never fails. */
  datatype Prepared = Prepared(command: string, args: seq<string>, status: Status)

  function PrepareDockerCommandAndArgs(binaryPath: string, configPath: string, windows: bool): (r: Prepared)
    ensures r.status == Ok
    ensures Parse(r.args) == Some(ConfigOption(configPath))
    ensures binaryPath != "" ==>
              r.command == binaryPath + "/" + (if windows then "docker.exe" else "docker")
    ensures binaryPath == "" ==> r.command == (if windows then "docker.exe" else "docker")
  {
    Prepared(DockerCommand(binaryPath, windows), ["--config", configPath], Ok)
  }
}

=== FILE: paths.dfy ===
/** Path derivation shared by deploy and undeploy: the repository name taken
    from the Git URL, the working root under the destination, the clone path
    and the absolute compose file paths. */
module Paths {
  import opened Types
  import opened Strings

  /** `path.Join` of two elements, without the lexical cleaning Go applies to
      the result: an empty element is dropped, otherwise the two are joined
      with a single slash. */
  function Join(a: string, b: string): string
  {
    if a == "" then b else if b == "" then a else a + "/" + b
  }

  /** The working root, `Destination + "/mount"` (formatted, not joined). */
  function MountPath(destination: string): string
  {
    destination + "/mount"
  }

  /** Where an existing working root is parked while the fresh clone is made. */
  function BackupPath(mount: string): string
  {
    mount + "-old"
  }

  /** The repository name: the text after the last slash of the URL with one
      trailing ".git" removed; None when the URL has no slash at all.
      The result is pinned down without reference to how it is computed: it
      never contains a slash, and the URL ends with a slash, the name and
      ".git", or (when the URL does not end in ".git") with a slash and the
      name. */
  function RepositoryName(url: string): (r: Option<string>)
    ensures r.None? <==> '/' !in url
    ensures r.Some? ==> '/' !in r.value
    ensures r.Some? ==>
              HasSuffix(url, "/" + r.value + ".git")
              || (HasSuffix(url, "/" + r.value) && !HasSuffix(url, ".git"))
  {
    match LastIndexOf(url, '/')
    case None => None
    case Some(i) =>
      LastSegmentName(url, i);
      Some(TrimSuffix(url[i + 1..], ".git"))
  }

  /** The last segment with one ".git" removed holds no slash, and the URL
      ends with a slash and that name, followed by ".git" exactly when the
      URL ends in ".git". */
  lemma LastSegmentName(url: string, i: nat)
    requires i < |url| && url[i] == '/' && '/' !in url[i + 1..]
    ensures var name := TrimSuffix(url[i + 1..], ".git");
            && '/' !in name
            && (HasSuffix(url, "/" + name + ".git")
                || (HasSuffix(url, "/" + name) && !HasSuffix(url, ".git")))
  {
    var tail := url[i + 1..];
    var name := TrimSuffix(tail, ".git");
    assert url == url[..i] + "/" + tail;
    if HasSuffix(tail, ".git") {
      assert name == tail[..|tail| - 4];
      assert url == url[..i] + ("/" + name + ".git");
    } else {
      assert url == url[..i] + ("/" + name);
      NoGitSuffix(url, i);
    }
  }

  /** When the last segment does not end in ".git", neither does the URL:
      ".git" holds no slash, so it could only come from that segment. */
  lemma NoGitSuffix(url: string, i: nat)
    requires i < |url| && url[i] == '/' && '/' !in url[i + 1..]
    requires !HasSuffix(url[i + 1..], ".git")
    ensures !HasSuffix(url, ".git")
  {
    var tail := url[i + 1..];
    if |tail| >= 4 {
      assert tail[|tail| - 4..] == url[|url| - 4..];
    } else if |url| >= 4 {
      assert url[|url| - 4..][i - (|url| - 4)] == '/';
    }
  }

  /** The last occurrence of `c` is unaffected by a tail that does not
      contain `c`. */
  lemma {:induction false} LastIndexSkipsTail(s: string, t: string, c: char)
    requires c !in t
    ensures LastIndexOf(s + t, c) == LastIndexOf(s, c)
    decreases |t|
  {
    if |t| == 0 {
      assert s + t == s;
    } else {
      var u := s + t;
      assert u[..|u| - 1] == s + t[..|t| - 1];
      assert u[|u| - 1] == t[|t| - 1];
      LastIndexSkipsTail(s, t[..|t| - 1], c);
    }
  }

  /** The last slash of `prefix + "/" + tail` is the one in front of `tail`
      when `tail` holds no slash. */
  lemma LastSlash(prefix: string, tail: string)
    requires '/' !in tail
    ensures LastIndexOf(prefix + "/" + tail, '/') == Some(|prefix|)
  {
    LastIndexSkipsTail(prefix + "/", tail, '/');
  }

  /** Derivation recovers the name of any repository URL: a trailing ".git"
      is dropped once, a name without it is kept as is. */
  lemma {:induction false} RepositoryNameOfUrl(prefix: string, name: string)
    requires '/' !in name
    ensures RepositoryName(prefix + "/" + name + ".git") == Some(name)
    ensures !HasSuffix(name, ".git") ==> RepositoryName(prefix + "/" + name) == Some(name)
  {
    assert prefix + "/" + name + ".git" == prefix + "/" + (name + ".git");
    LastSlash(prefix, name + ".git");
    assert (prefix + "/" + name + ".git")[|prefix| + 1..] == name + ".git";
    LastSlash(prefix, name);
    assert (prefix + "/" + name)[|prefix| + 1..] == name;
  }

  /** Only one ".git" is removed. */
  lemma DoubleGitSuffixTrimmedOnce()
    ensures RepositoryName("https://host/org/app.git.git") == Some("app.git")
  {
    RepositoryNameOfUrl("https://host/org", "app.git");
    assert "https://host/org" + "/" + "app.git" + ".git" == "https://host/org/app.git.git";
  }

  /** The absolute compose file paths: one per relative path, in input
      order, each joined onto the clone path. */
  function ComposeFilePaths(clonePath: string, rel: seq<string>): (r: seq<string>)
    ensures |r| == |rel|
    ensures forall i :: 0 <= i < |rel| ==> r[i] == Join(clonePath, rel[i])
  {
    if |rel| == 0 then [] else [Join(clonePath, rel[0])] + ComposeFilePaths(clonePath, rel[1..])
  }

  /** Stripping the clone path and the slash off every compose file path gives
      back the relative paths: the mapping loses nothing. */
  lemma ComposeFilePathsRelative(clonePath: string, rel: seq<string>)
    requires clonePath != ""
    requires forall i :: 0 <= i < |rel| ==> rel[i] != ""
    ensures var r := ComposeFilePaths(clonePath, rel);
            forall i :: 0 <= i < |r| ==>
              |clonePath| < |r[i]| && r[i][..|clonePath| + 1] == clonePath + "/"
              && r[i][|clonePath| + 1..] == rel[i]
  {
  }

  /** The clone path sits directly inside the working root, and its last
      element is the repository name. */
  lemma ClonePathLastElement(destination: string, name: string)
    requires name != "" && '/' !in name
    ensures var clonePath := Join(MountPath(destination), name);
            clonePath == destination + "/mount/" + name
            && LastIndexOf(clonePath, '/') == Some(|destination| + 6)
            && clonePath[|destination| + 7..] == name
  {
    var clonePath := Join(MountPath(destination), name);
    assert clonePath == (destination + "/mount") + "/" + name;
    LastSlash(destination + "/mount", name);
  }
}

=== FILE: process.dfy ===
/** External process invocation. The process itself is not modelled: its
    outcome is an input, and the model records exactly what would be started
    (binary, arguments, environment, working directory). */
module Process {
  import opened Types

  /** What `exec.Command` is set up with. `env` None leaves `cmd.Env` unset,
      so the child inherits the parent's environment; `dir` "" runs it in the
      caller's working directory. */
  datatype Invocation = Invocation(command: string, args: seq<string>, env: Option<seq<string>>, dir: string)

  /** How a process started by `runCommandAndCaptureStdErr` ended. */
  datatype ProcessResult = ProcessResult(success: bool, stderr: string)

  /** The invocation made and the error returned for it. */
  datatype Execution = Execution(invocation: Invocation, status: Status)

  /** `runCommandAndCaptureStdErr`: a nil `env` inherits the parent
      environment; any other `env` (even an empty one) sets `cmd.Env` to the
      parent's `environ` followed by `env`, in order. A failed
      run returns an error whose text is exactly the captured standard error. */
  function RunCommandAndCaptureStdErr(
    command: string, args: seq<string>, env: Option<seq<string>>, workingDir: string,
    environ: seq<string>, result: ProcessResult): (x: Execution)
    ensures x.invocation.command == command && x.invocation.args == args && x.invocation.dir == workingDir
    ensures x.invocation.env.None? <==> env.None?
    ensures env.Some? ==>
              var childEnv := x.invocation.env.value;
              && |childEnv| == |environ| + |env.value|
              && childEnv[..|environ|] == environ
              && childEnv[|environ|..] == env.value
    ensures x.status.Ok? <==> result.success
    ensures x.status.Failed? ==> x.status.error.CommandFailed? && Message(x.status.error) == result.stderr
  {
    var childEnv := match env
      case None => None
      case Some(extra) => Some(environ + extra);
    Execution(
      Invocation(command, args, childEnv, workingDir),
      if result.success then Ok else Failed(CommandFailed(result.stderr)))
  }

  /** The list assigned to `cmd.Env`, or, when it stays unset, the inherited
      parent environment. How exec resolves repeated keys in that list is not
      modelled. */
  function ChildEnvironment(inv: Invocation, environ: seq<string>): seq<string>
  {
    inv.env.GetOr(environ)
  }

  /** The list given to the child always holds the whole parent environment
      first, never a subset, and a nil and an empty `env` give the same list. */
  lemma ChildEnvironmentExtendsParent(
    command: string, args: seq<string>, env: Option<seq<string>>, workingDir: string,
    environ: seq<string>, result: ProcessResult)
    ensures var x := RunCommandAndCaptureStdErr(command, args, env, workingDir, environ, result);
            ChildEnvironment(x.invocation, environ) == environ + env.GetOr([])
    ensures var nil := RunCommandAndCaptureStdErr(command, args, None, workingDir, environ, result);
            var empty := RunCommandAndCaptureStdErr(command, args, Some([]), workingDir, environ, result);
            ChildEnvironment(nil.invocation, environ) == ChildEnvironment(empty.invocation, environ)
  {
    assert environ + [] == environ;
  }

  /** A program started through the unshown `runCommand` helper, which
      returns its standard output. */
  datatype Call = Call(command: string, args: seq<string>)

  /** What `runCommand` returns: the output, or the error it produced. */
  datatype CommandResult = Output(stdout: string) | RunError(error: Error)
}

=== FILE: strings.dfy ===
/** The string operations the core relies on (Go's `strings.LastIndex`,
    `strings.TrimSuffix`, `strings.Split`) and `splitLines` of swarm.go, which
    turns the output of a service listing into service IDs. */
module Strings {
  import opened Types

  /** Position of the last `c` in `s` (`strings.LastIndex` with a one-character
      separator); None plays the role of Go's -1. */
  function LastIndexOf(s: string, c: char): (r: Option<nat>)
    ensures r.None? <==> c !in s
    ensures r.Some? ==> r.value < |s| && s[r.value] == c && c !in s[r.value + 1..]
  {
    if |s| == 0 then None
    else if s[|s| - 1] == c then Some(|s| - 1)
    else
      var r := LastIndexOf(s[..|s| - 1], c);
      assert s == s[..|s| - 1] + [s[|s| - 1]];
      r
  }

  predicate HasSuffix(s: string, suffix: string)
  {
    |suffix| <= |s| && s[|s| - |suffix|..] == suffix
  }

  /** `strings.TrimSuffix`: removes one trailing `suffix`, if present. */
  function TrimSuffix(s: string, suffix: string): (r: string)
    ensures HasSuffix(s, suffix) ==> r + suffix == s
    ensures !HasSuffix(s, suffix) ==> r == s
  {
    if HasSuffix(s, suffix) then s[..|s| - |suffix|] else s
  }

  /** `sep` occurs in `s` starting at position `i`. */
  predicate OccursAt(s: string, sep: string, i: int)
  {
    0 <= i && i + |sep| <= |s| && s[i..i + |sep|] == sep
  }

  /** First occurrence of `sep` in `s` at or after position `k`. */
  function IndexFrom(s: string, sep: string, k: nat): (r: Option<nat>)
    requires |sep| > 0
    ensures r.Some? ==> k <= r.value && OccursAt(s, sep, r.value)
    ensures r.Some? ==> forall j :: k <= j < r.value ==> !OccursAt(s, sep, j)
    ensures r.None? ==> forall j :: k <= j ==> !OccursAt(s, sep, j)
    decreases |s| - k
  {
    if k + |sep| > |s| then None
    else if s[k..k + |sep|] == sep then Some(k)
    else IndexFrom(s, sep, k + 1)
  }

  /** First occurrence of `sep` in `s` (`strings.Index`). */
  function IndexOf(s: string, sep: string): Option<nat>
    requires |sep| > 0
  {
    IndexFrom(s, sep, 0)
  }

  /** `strings.Split` for a non-empty separator: the pieces of `s` between
      successive non-overlapping occurrences of `sep`, scanning left to right.
      There is always at least one piece, and no piece contains `sep`. */
  function Split(s: string, sep: string): (parts: seq<string>)
    requires |sep| > 0
    ensures |parts| > 0
    ensures forall k, j :: 0 <= k < |parts| ==> !OccursAt(parts[k], sep, j)
    decreases |s|
  {
    match IndexOf(s, sep)
    case None => [s]
    case Some(i) =>
      var rest := Split(s[i + |sep|..], sep);
      assert forall j :: !OccursAt(s[..i], sep, j) by {
        forall j | OccursAt(s[..i], sep, j)
          ensures false
        {
          assert s[..i][j..j + |sep|] == s[j..j + |sep|];
          assert OccursAt(s, sep, j);
        }
      }
      [s[..i]] + rest
  }

  /** `strings.Join`: the inverse of `Split`. */
  function JoinWith(parts: seq<string>, sep: string): string
  {
    if |parts| == 0 then ""
    else if |parts| == 1 then parts[0]
    else parts[0] + sep + JoinWith(parts[1..], sep)
  }

  /** Splitting loses nothing: joining the pieces back with the separator
      gives the original text. */
  lemma {:induction false} JoinSplit(s: string, sep: string)
    requires |sep| > 0
    ensures JoinWith(Split(s, sep), sep) == s
    decreases |s|
  {
    match IndexOf(s, sep)
    case None =>
    case Some(i) =>
      var rest := s[i + |sep|..];
      JoinSplit(rest, sep);
      assert Split(s, sep) == [s[..i]] + Split(rest, sep);
      assert s == s[..i] + sep + rest;
  }

  /** The pieces that are not empty, in their original order. */
  function RemoveEmpty(parts: seq<string>): (r: seq<string>)
    ensures forall k :: 0 <= k < |r| ==> r[k] != ""
    ensures forall x :: x in r <==> x in parts && x != ""
    ensures (forall k :: 0 <= k < |parts| ==> parts[k] != "") ==> r == parts
  {
    if |parts| == 0 then []
    else if parts[0] == "" then RemoveEmpty(parts[1..])
    else [parts[0]] + RemoveEmpty(parts[1..])
  }

  lemma {:induction false} RemoveEmptyConcat(a: seq<string>, b: seq<string>)
    ensures RemoveEmpty(a + b) == RemoveEmpty(a) + RemoveEmpty(b)
  {
    if |a| == 0 {
      assert a + b == b;
    } else {
      assert (a + b)[1..] == a[1..] + b;
      RemoveEmptyConcat(a[1..], b);
    }
  }

  /** The line separator `splitLines` picks: "\r\n" on Windows, "\n" elsewhere. */
  function LineSeparator(windows: bool): string
  {
    if windows then "\r\n" else "\n"
  }

  /** `splitLines`: split on the separator, then keep the non-empty parts. */
  method SplitLines(s: string, separator: string) returns (ret: seq<string>)
    requires |separator| > 0
    ensures ret == RemoveEmpty(Split(s, separator))
    ensures forall k :: 0 <= k < |ret| ==> ret[k] != ""
  {
    var parts := Split(s, separator);
    ret := [];
    for i := 0 to |parts|
      invariant ret == RemoveEmpty(parts[..i])
    {
      assert parts[..i + 1] == parts[..i] + [parts[i]];
      RemoveEmptyConcat(parts[..i], [parts[i]]);
      if parts[i] != "" {
        ret := ret + [parts[i]];
      }
    }
    assert parts[..|parts|] == parts;
  }

  /** Output in the shape a service listing prints: every line terminated by
      the separator. */
  function Listing(lines: seq<string>, sep: string): string
  {
    if |lines| == 0 then "" else lines[0] + sep + Listing(lines[1..], sep)
  }

  /** In `line + sep + rest`, the first separator is the one right after
      `line` when `line` does not contain the separator's first character. */
  lemma IndexAfterLine(line: string, sep: string, rest: string)
    requires |sep| > 0 && sep[0] !in line
    ensures IndexOf(line + sep + rest, sep) == Some(|line|)
  {
    var s := line + sep + rest;
    assert s[|line|..|line| + |sep|] == sep;
    assert OccursAt(s, sep, |line|);
    forall j | 0 <= j < |line|
      ensures !OccursAt(s, sep, j)
    {
      assert s[j] == line[j] != sep[0];
    }
  }

  /** A line free of the separator's first character is split off whole. */
  lemma SplitAfterLine(line: string, sep: string, rest: string)
    requires |sep| > 0 && sep[0] !in line
    ensures Split(line + sep + rest, sep) == [line] + Split(rest, sep)
  {
    var s := line + sep + rest;
    IndexAfterLine(line, sep, rest);
    assert s[..|line|] == line;
    assert s[|line| + |sep|..] == rest;
  }

  /** Splitting a listing gives back its lines, plus the empty piece after the
      final separator. */
  lemma {:induction false} SplitListing(lines: seq<string>, sep: string)
    requires |sep| > 0
    requires forall line :: line in lines ==> sep[0] !in line
    ensures Split(Listing(lines, sep), sep) == lines + [""]
  {
    if |lines| == 0 {
      assert IndexOf("", sep).None?;
    } else {
      var line := lines[0];
      var more := lines[1..];
      var rest := Listing(more, sep);
      assert forall x :: x in more ==> x in lines;
      SplitListing(more, sep);
      assert Listing(lines, sep) == line + sep + rest;
      SplitAfterLine(line, sep, rest);
      assert lines + [""] == [line] + (more + [""]);
    }
  }

  /** Service IDs printed one per line come back from `splitLines` exactly,
      in order, whichever separator is in use, as long as no ID contains the
      separator's first character; empty lines are dropped. */
  lemma LinesOfListing(lines: seq<string>, sep: string)
    requires |sep| > 0
    requires forall line :: line in lines ==> sep[0] !in line
    ensures RemoveEmpty(Split(Listing(lines, sep), sep)) == RemoveEmpty(lines)
    ensures (forall k :: 0 <= k < |lines| ==> lines[k] != "") ==>
              RemoveEmpty(Split(Listing(lines, sep), sep)) == lines
  {
    SplitListing(lines, sep);
    RemoveEmptyConcat(lines, [""]);
  }

  /** Two examples: empty output gives no IDs, and a trailing blank line is
      dropped. */
  lemma SplitLinesExamples()
    ensures RemoveEmpty(Split("", "\n")) == []
    ensures RemoveEmpty(Split("id1\nid2\n\n", "\n")) == ["id1", "id2"]
  {
    LinesOfListing([], "\n");
    assert Listing(["id1", "id2", ""], "\n") == "id1\nid2\n\n";
    LinesOfListing(["id1", "id2", ""], "\n");
    assert RemoveEmpty(["id1", "id2", ""]) == ["id1", "id2"];
  }

  /** With the "\n" separator, Windows line endings are not normalised: each
      ID keeps its trailing carriage return. */
  lemma CarriageReturnKept()
    ensures RemoveEmpty(Split("id1\r\nid2\r\n", "\n")) == ["id1\r", "id2\r"]
  {
    assert Listing(["id1\r", "id2\r"], "\n") == "id1\r\nid2\r\n";
    LinesOfListing(["id1\r", "id2\r"], "\n");
  }
}

=== FILE: swarm.dfy ===
/** The Swarm helpers of swarm.go: `deploySwarmStack`, the service listing
    and the forced service update. The docker binary path comes from a helper
    outside this model (`getDockerBinaryPath`), so it is a parameter; so is the
    outcome of the process each helper starts. */
module Swarm {
  import opened Types
  import opened Strings
  import opened Paths
  import opened DockerArgs
  import opened Process
  import opened System
  import Deploy

  /** `deploySwarmStack`: `docker stack deploy` for the command's flags, with
      the compose files placed in the clone and the project name last; it
      runs in the clone with the command's own environment list. Any failure
      of the process is reported as the generic deployment failure. */
  function DeploySwarmStack(cmd: SwarmDeployCommand, clonePath: string, command: string,
                            environ: seq<string>, result: ProcessResult): (x: Execution)
    ensures x.invocation.command == command
    ensures Parse(x.invocation.args)
            == Some(StackDeploy(cmd.prune, cmd.pull,
                                ComposeFilePaths(clonePath, cmd.composeRelativeFilePaths), cmd.projectName))
    ensures x.invocation.dir == clonePath
    ensures x.invocation.env.None? <==> cmd.env.None?
    ensures ChildEnvironment(x.invocation, environ) == environ + cmd.env.GetOr([])
    ensures x.status.Ok? <==> result.success
    ensures x.status.Failed? ==> x.status.error == DeployComposeFailure
  {
    var files := ComposeFilePaths(clonePath, cmd.composeRelativeFilePaths);
    var args := StackDeployArgs(cmd.prune, cmd.pull, files, cmd.projectName);
    StackDeployRoundTrip(cmd.prune, cmd.pull, files, cmd.projectName);
    ChildEnvironmentExtendsParent(command, args, cmd.env, clonePath, environ, result);
    var run := RunCommandAndCaptureStdErr(command, args, cmd.env, clonePath, environ, result);
    Execution(run.invocation, if run.status.Ok? then Ok else Failed(DeployComposeFailure))
  }

  /** The Swarm deploy of deploy.go issues exactly the vector `deploySwarmStack`
      builds for the same command and clone; the two differ only in the
      environment (always an empty list there) and the working directory (the
      project name there, the clone here). */
  lemma SameVectorAsSwarmRun(cmd: SwarmDeployCommand, h: Host)
    ensures forall e :: e in Deploy.Run(Deploy.Swarm(cmd), h).effects && e.Exec? ==>
              && Deploy.ClonePathOf(cmd.gitRepository, cmd.destination).Some?
              && var x := DeploySwarmStack(cmd.(env := Some([])),
                                           Deploy.ClonePathOf(cmd.gitRepository, cmd.destination).value,
                                           DockerCommand(BinPath, h.windows), h.environ, h.docker);
                 e.invocation == x.invocation.(dir := cmd.projectName)
  {
    Deploy.SwarmRunExecs(cmd, h);
  }

  /** `checkRunningService`: lists the stack's service IDs, one per line. A
      failure of the listing comes back unchanged; otherwise the IDs are the
      non-empty lines of the output, split on the platform's line separator. */
  method CheckRunningService(command: string, projectName: string, windows: bool, result: CommandResult)
    returns (call: Call, services: Result<seq<string>>)
    ensures call.command == command
    ensures Parse(call.args) == Some(StackServices(projectName))
    ensures result.RunError? ==> services == Failure(result.error)
    ensures result.Output? ==> services == Success(RemoveEmpty(Split(result.stdout, LineSeparator(windows))))
    ensures services.Success? ==> forall k :: 0 <= k < |services.value| ==> services.value[k] != ""
  {
    call := Call(command, Args(StackServices(projectName)));
    match result
    case RunError(error) =>
      services := Failure(error);
    case Output(stdout) =>
      var ids := SplitLines(stdout, LineSeparator(windows));
      services := Success(ids);
  }

  /** The outcome of `updateService`: the call made and the error returned. */
  datatype Update = Update(call: Call, status: Status)

  /** `updateService`: forces a rolling update of one service; a failure of
      the call comes back unchanged, and the output is ignored. */
  function UpdateService(command: string, serviceId: string, result: CommandResult): (u: Update)
    ensures u.call.command == command
    ensures Parse(u.call.args) == Some(ServiceUpdate(serviceId))
    ensures u.status.Ok? <==> result.Output?
    ensures result.RunError? ==> u.status == Failed(result.error)
  {
    ParseArgs(ServiceUpdate(serviceId));
    Update(Call(command, Args(ServiceUpdate(serviceId))),
           match result
           case Output(_) => Ok
           case RunError(error) => Failed(error))
  }
}

=== FILE: system.dfy ===
/** The host a command runs on, seen as data: the paths that exist, and the
    answers the outside world gives to each external call of one invocation
    (file-system operations, the Git clone, the Compose engine, docker). A run
    of a command is a `Report`: the error it returns, the paths that exist
    afterwards, and the external steps it took, in order. */
module System {
  import opened Types
  import Process

  /** `p` is `root` itself or lies somewhere below it. */
  predicate Under(p: string, root: string)
  {
    p == root || (|root| < |p| && p[..|root|] == root && p[|root|] == '/')
  }

  /** `os.RemoveAll`: the whole tree at `root` is gone, nothing else changes. */
  function RemoveTree(paths: set<string>, root: string): (r: set<string>)
    ensures forall p :: p in r <==> p in paths && !Under(p, root)
  {
    set p | p in paths && !Under(p, root)
  }

  /** Renaming the tree at `from` to `to`: every path below `from` reappears
      below `to`, nothing else changes. */
  function MoveTree(paths: set<string>, from: string, to: string): (r: set<string>)
    ensures forall p :: p in paths && !Under(p, from) ==> p in r
    ensures forall p :: p in paths && Under(p, from) ==> to + p[|from|..] in r
    ensures forall q :: q in r ==>
              || (q in paths && !Under(q, from))
              || exists p :: p in paths && Under(p, from) && q == to + p[|from|..]
  {
    (set p | p in paths && !Under(p, from))
    + (set p | p in paths && Under(p, from) :: to + p[|from|..])
  }

  /** One invocation's view of the host.
      `statFault`: `os.Stat` fails with an error other than "does not exist";
      `mkdirOk`: `os.MkdirAll` succeeds; `moveFault`: the backup move fails
      with this error even though nothing occupies the backup path; `removeOk`: `os.RemoveAll` of the backup succeeds;
      `cloneOk`, `deployerOk`, `composeOk`: the Git clone, creation of the
      Compose deployer, and its Deploy/Remove succeed; `windows`: the
      operating system; `environ`: `os.Environ()`; `docker`: how the one
      docker process of the command ends. */
  datatype Host = Host(
    paths: set<string>,
    statFault: Option<string>,
    mkdirOk: bool,
    moveFault: Option<string>,
    removeOk: bool,
    cloneOk: bool,
    deployerOk: bool,
    composeOk: bool,
    windows: bool,
    environ: seq<string>,
    docker: Process.ProcessResult)

  /** An external step a command takes. */
  datatype Effect =
    | MakeDir(path: string)
    | MoveDir(from: string, to: string)
    | RemoveAll(path: string)
    | Clone(url: string, path: string, auth: Option<BasicAuth>, depth: nat)
    | CreateDeployer(binPath: string)
    | ComposeUp(workingDir: string, projectName: string, composeFiles: seq<string>, forceRecreate: bool)
    | ComposeDown(workingDir: string, projectName: string, composeFiles: seq<string>)
    | Exec(invocation: Process.Invocation)

  /** Steps that create, move, remove or fill directories. */
  predicate TouchesFileSystem(e: Effect)
  {
    e.MakeDir? || e.MoveDir? || e.RemoveAll? || e.Clone?
  }

  /** The outcome of running one command. */
  datatype Report = Report(status: Status, paths: set<string>, effects: seq<Effect>)
}

=== FILE: types.dfy ===
/** Plain values shared by the whole model: option and result wrappers, the
    error values the commands return, and records mirroring the command structs
    of types.go (only as data; command-line parsing is not modelled). */
module Types {

  /** Present or absent value; `None` also stands for a Go nil slice or pointer. */
  datatype Option<+T> = None | Some(value: T) {
    function GetOr(default: T): T
    {
      match this
      case Some(v) => v
      case None => default
    }
  }

  /** The error values the core can return.
      `OsError` is an error of the operating system or of a file-system
      helper, returned unchanged;
      `CommandFailed` is built from the captured standard error of a failed
      docker invocation. */
  datatype Error =
    | DeployComposeFailure
    | UndeployComposeFailure
    | OsError(detail: string)
    | CommandFailed(stderr: string)

  /** The text `Error()` would print for each error. */
  function Message(e: Error): string
  {
    match e
    case DeployComposeFailure => "stack deployment failure"
    case UndeployComposeFailure => "compose stack remove failure"
    case OsError(detail) => detail
    case CommandFailed(stderr) => stderr
  }

  /** A Go `error` result: nil, or an error value. */
  datatype Status = Ok | Failed(error: Error)

  /** A Go `(T, error)` pair in which exactly one side is meaningful. */
  datatype Result<+T> = Success(value: T) | Failure(error: Error)

  /** `http.BasicAuth`. */
  datatype BasicAuth = BasicAuth(username: string, password: string)

  /** `DeployCommand`; `env` is None when no --env was given (a nil slice). */
  datatype DeployCommand = DeployCommand(
    user: string,
    password: string,
    keep: bool,
    skipTlsVerify: bool,
    env: Option<seq<string>>,
    registry: seq<string>,
    gitRepository: string,
    reference: string,
    projectName: string,
    destination: string,
    composeRelativeFilePaths: seq<string>)

  /** `SwarmDeployCommand`. */
  datatype SwarmDeployCommand = SwarmDeployCommand(
    user: string,
    password: string,
    pull: bool,
    prune: bool,
    keep: bool,
    skipTlsVerify: bool,
    env: Option<seq<string>>,
    registry: seq<string>,
    gitRepository: string,
    reference: string,
    projectName: string,
    destination: string,
    composeRelativeFilePaths: seq<string>)

  /** `UndeployCommand`. */
  datatype UndeployCommand = UndeployCommand(
    user: string,
    password: string,
    keep: bool,
    gitRepository: string,
    projectName: string,
    destination: string,
    composeRelativeFilePaths: seq<string>)

  /** `SwarmUndeployCommand`. */
  datatype SwarmUndeployCommand = SwarmUndeployCommand(
    keep: bool,
    projectName: string,
    destination: string)

  /** `BIN_PATH`: the directory holding the docker binaries. */
  const BinPath: string := "/app"
}

=== FILE: undeploy.dfy ===
/** The two undeploy commands of undeploy.go. The Compose undeploy derives
    the clone path the way the deploy commands do and asks the Compose engine
    to remove the stack from there; the Swarm undeploy runs `docker stack rm`.
    Neither touches the working directory. */
module Undeploy {
  import opened Types
  import opened Paths
  import opened DockerArgs
  import opened Process
  import opened System
  import Deploy

  /** `UndeployCommand.Run`: a URL without a slash, a failure to create the
      Compose deployer and a failed removal all return the generic deployment
      failure (the declared undeploy error is never used). */
  function Undeploy(cmd: UndeployCommand, h: Host): Report
  {
    match RepositoryName(cmd.gitRepository)
    case None => Report(Failed(DeployComposeFailure), h.paths, [])
    case Some(repositoryName) =>
      var clonePath := Join(MountPath(cmd.destination), repositoryName);
      if !h.deployerOk then Report(Failed(DeployComposeFailure), h.paths, [CreateDeployer(BinPath)])
      else
        var files := ComposeFilePaths(clonePath, cmd.composeRelativeFilePaths);
        Report(if h.composeOk then Ok else Failed(DeployComposeFailure), h.paths,
               [CreateDeployer(BinPath), ComposeDown(clonePath, cmd.projectName, files)])
  }

  /** A URL without a slash is rejected before the deployer is created, and
      that is the only way to fail without a step. */
  lemma RejectsUrlWithoutSlash(cmd: UndeployCommand, h: Host)
    ensures '/' !in cmd.gitRepository <==> Undeploy(cmd, h) == Report(Failed(DeployComposeFailure), h.paths, [])
  {
  }

  /** The Compose undeploy never creates, moves or removes anything on disk,
      and every failure is the generic deployment failure. */
  lemma LeavesWorkingDirectoryAlone(cmd: UndeployCommand, h: Host)
    ensures var r := Undeploy(cmd, h);
            && r.paths == h.paths
            && (forall e :: e in r.effects ==> !TouchesFileSystem(e))
            && (r.status.Failed? ==> r.status.error == DeployComposeFailure)
  {
  }

  /** The undeploy succeeds exactly when the URL has a slash and both the
      deployer creation and the removal succeed. */
  lemma SucceedsExactlyWhen(cmd: UndeployCommand, h: Host)
    ensures Undeploy(cmd, h).status == Ok <==> '/' in cmd.gitRepository && h.deployerOk && h.composeOk
  {
  }

  /** The removal runs in the clone path, for the command's project, with the
      compose files mapped onto the clone in input order. */
  lemma RemovesDeclaredFiles(cmd: UndeployCommand, h: Host)
    ensures forall e :: e in Undeploy(cmd, h).effects && e.ComposeDown? ==>
              && Deploy.ClonePathOf(cmd.gitRepository, cmd.destination) == Some(e.workingDir)
              && e.projectName == cmd.projectName
              && |e.composeFiles| == |cmd.composeRelativeFilePaths|
              && forall i :: 0 <= i < |e.composeFiles| ==>
                   e.composeFiles[i] == Join(e.workingDir, cmd.composeRelativeFilePaths[i])
  {
  }

  /** The keep flag is accepted but never read. */
  lemma KeepUnread(cmd: UndeployCommand, h: Host, keep: bool)
    ensures Undeploy(cmd.(keep := keep), h) == Undeploy(cmd, h)
  {
  }

  /** Undeploy removes the stack from the very directory a deploy of the same
      repository into the same destination cloned it to. */
  lemma SameClonePathAsDeploy(d: Deploy.Deployment, u: UndeployCommand, h: Host, h2: Host)
    requires d.Url() == u.gitRepository && d.Destination() == u.destination
    ensures forall c, r :: c in Deploy.Run(d, h).effects && c.Clone? && r in Undeploy(u, h2).effects && r.ComposeDown? ==>
              c.path == r.workingDir
  {
    Deploy.CloneTarget(d, h);
    RemovesDeclaredFiles(u, h2);
  }

  /** `SwarmUndeployCommand.Run`: `docker stack rm <project>` with the
      inherited environment in the caller's directory; its error comes back
      as it is. */
  function SwarmUndeploy(cmd: SwarmUndeployCommand, h: Host): (r: Report)
    ensures |r.effects| == 1 && r.effects[0].Exec?
    ensures var inv := r.effects[0].invocation;
            && inv.command == DockerCommand(BinPath, h.windows)
            && Parse(inv.args) == Some(StackRm(cmd.projectName))
            && inv.env.None?
            && inv.dir == ""
            && ChildEnvironment(inv, h.environ) == h.environ
    ensures r.status.Ok? <==> h.docker.success
    ensures r.status.Failed? ==> r.status.error == CommandFailed(h.docker.stderr)
    ensures r.paths == h.paths
  {
    var x := RunCommandAndCaptureStdErr(DockerCommand(BinPath, h.windows), Args(StackRm(cmd.projectName)),
                                        None, "", h.environ, h.docker);
    Report(x.status, h.paths, [Exec(x.invocation)])
  }

  /** Neither the keep flag nor the destination is read by the Swarm undeploy. */
  lemma SwarmUndeployReadsOnlyProject(cmd: SwarmUndeployCommand, h: Host, keep: bool, destination: string)
    ensures SwarmUndeploy(cmd.(keep := keep, destination := destination), h) == SwarmUndeploy(cmd, h)
  {
  }
}

=== FILE: workdir.dfy ===
/** Preparation of the working root before a clone, and the deferred removal
    of the backup, as both deploy commands do it. */
module Workdir {
  import opened Types
  import opened System
  import opened Paths

  datatype StatResult = Exists | NotExist | StatFailed(detail: string)

  /** `os.Stat`: a fault reported by the host wins, then existence decides. */
  function Stat(h: Host, p: string): StatResult
  {
    if h.statFault.Some? then StatFailed(h.statFault.value)
    else if p in h.paths then Exists
    else NotExist
  }

  /** The state after preparation: ready to clone (with the backup to remove
      later, if one was made), or aborted with the error the command returns. */
  datatype Prepared =
    | Ready(paths: set<string>, backup: Option<string>, effects: seq<Effect>)
    | Aborted(error: Error, paths: set<string>, effects: seq<Effect>)

  /** The error of `filesystem.MoveDirectory` when its target is taken. */
  const BackupTaken: string := "Target path already exists"

  /** How the move of the working root to `backup` ends. The move refuses a
      target whose path is already in the path set instead of merging into
      it; otherwise the host decides. */
  function MoveError(h: Host, backup: string): Option<string>
  {
    if backup in h.paths then Some(BackupTaken) else h.moveFault
  }

  /** Preparation of the working root `mount`. A missing root is created (a
      creation failure is the generic deployment failure); an existing root is
      moved aside to `mount + "-old"` and nothing else on disk changes; a
      stat error other than "does not exist" and a failed move are returned
      unchanged, and a backup left in place from before fails the move. An
      aborted preparation leaves the paths as they were. */
  function Prepare(h: Host, mount: string): (r: Prepared)
    ensures h.statFault.Some? ==> r == Aborted(OsError(h.statFault.value), h.paths, [])
    ensures h.statFault.None? && mount !in h.paths ==>
              && r.effects == [MakeDir(mount)]
              && (r.Ready? <==> h.mkdirOk)
              && (r.Ready? ==> r.backup.None? && r.paths == h.paths + {mount})
              && (r.Aborted? ==> r.error == DeployComposeFailure)
    ensures h.statFault.None? && mount in h.paths ==>
              && r.effects == [MoveDir(mount, BackupPath(mount))]
              && (r.Ready? <==> h.moveFault.None? && BackupPath(mount) !in h.paths)
              && (BackupPath(mount) in h.paths ==> r.Aborted? && r.error == OsError(BackupTaken))
              && (BackupPath(mount) !in h.paths && h.moveFault.Some? ==>
                    r.Aborted? && r.error == OsError(h.moveFault.value))
              && (r.Ready? ==>
                    && r.paths == MoveTree(h.paths, mount, BackupPath(mount))
                    && r.backup == Some(BackupPath(mount))
                    && BackupPath(mount) in r.paths
                    && forall p :: p in r.paths ==> !Under(p, mount))
    ensures r.Aborted? ==> r.paths == h.paths
  {
    match Stat(h, mount)
    case StatFailed(detail) => Aborted(OsError(detail), h.paths, [])
    case NotExist =>
      if h.mkdirOk then Ready(h.paths + {mount}, None, [MakeDir(mount)])
      else Aborted(DeployComposeFailure, h.paths, [MakeDir(mount)])
    case Exists =>
      var backup := BackupPath(mount);
      match MoveError(h, backup)
      case Some(detail) => Aborted(OsError(detail), h.paths, [MoveDir(mount, backup)])
      case None =>
        var moved := MoveTree(h.paths, mount, backup);
        assert Under(mount, mount) && backup + mount[|mount|..] in moved;
        assert backup + mount[|mount|..] == backup;
        BackupNotUnderMount(h.paths, mount);
        Ready(moved, Some(backup), [MoveDir(mount, backup)])
  }

  /** Nothing that was moved to the backup still lies under the root. */
  lemma BackupNotUnderMount(paths: set<string>, mount: string)
    ensures forall p :: p in MoveTree(paths, mount, BackupPath(mount)) ==> !Under(p, mount)
  {
    var backup := BackupPath(mount);
    forall p | p in paths && Under(p, mount)
      ensures !Under(backup + p[|mount|..], mount)
    {
      var q := backup + p[|mount|..];
      assert q[|mount|] == '-';
    }
  }

  /** The old working tree survives the move: every path that was at or below
      the root is found at the same place below the backup. */
  lemma BackupKeepsTree(h: Host, mount: string)
    requires h.statFault.None? && mount in h.paths
    ensures var r := Prepare(h, mount);
            r.Ready? ==> forall p :: p in h.paths && Under(p, mount) ==> BackupPath(mount) + p[|mount|..] in r.paths
  {
  }

  /** The backup holds the old working tree and nothing else: a move never
      merges the root into an earlier backup (on a path set where anything
      below the backup path implies the backup path itself). */
  lemma {:induction false} BackupIsOldTree(h: Host, mount: string)
    requires forall p :: p in h.paths && Under(p, BackupPath(mount)) ==> BackupPath(mount) in h.paths
    ensures var r := Prepare(h, mount);
            r.Ready? && r.backup.Some? ==>
              forall q :: q in r.paths && Under(q, BackupPath(mount)) ==>
                exists p :: p in h.paths && Under(p, mount) && q == BackupPath(mount) + p[|mount|..]
  {
    var r := Prepare(h, mount);
    var backup := BackupPath(mount);
    if r.Ready? && r.backup.Some? {
      forall q | q in r.paths && Under(q, backup)
        ensures exists p :: p in h.paths && Under(p, mount) && q == backup + p[|mount|..]
      {
        assert !(q in h.paths && !Under(q, mount));
      }
    }
  }

  /** Preparation yields a fresh root, never a merge with an old tree: when it
      succeeds, nothing below the root exists, whether the root was created
      or the old one was moved aside. */
  lemma PrepareIsFresh(h: Host, mount: string)
    requires forall p :: p in h.paths && Under(p, mount) ==> mount in h.paths
    ensures var r := Prepare(h, mount);
            r.Ready? ==> forall p :: p in r.paths && Under(p, mount) ==> p == mount
  {
  }

  /** The deferred removal of the backup, run on every exit path once the
      move succeeded. It never changes the error the command returns (a
      removal failure is only logged); when it succeeds the backup tree, and
      nothing else, is gone. */
  function Release(body: Report, backup: Option<string>, removeOk: bool): (r: Report)
    ensures r.status == body.status
    ensures backup.None? ==> r == body
    ensures backup.Some? ==> r.effects == body.effects + [RemoveAll(backup.value)]
    ensures backup.Some? && removeOk ==> forall p :: p in r.paths ==> !Under(p, backup.value)
    ensures backup.Some? && removeOk ==> r.paths == RemoveTree(body.paths, backup.value)
    ensures backup.Some? && !removeOk ==> r.paths == body.paths
  {
    match backup
    case None => body
    case Some(b) =>
      Report(body.status, if removeOk then RemoveTree(body.paths, b) else body.paths, body.effects + [RemoveAll(b)])
  }
}
